=== FILE: README.md ===
# proteus boundary conditions for two-phase RANS flow, in Dafny

This project models the boundary-condition module of the proteus two-phase RANS solver
(`proteus/mprans/BoundaryConditions.py`) and proves properties of the model:

- **`BC_RANS`**: the record of nineteen flow boundary conditions (Dirichlet, advective and
  diffusive conditions for pressure, velocity, VOF, kappa and dissipation) and six
  mesh-motion conditions, with its setters (`reset`, `setNonMaterial`, `setTank`,
  `setFixedNodes`, `setNoSlip`, `setFreeSlip`, `setAtmosphere`, `setMoveMesh`,
  `setUnsteadyTwoPhaseVelocityInlet`). Each condition is a `Slot`:
  `Unset | Const(c) | Func(f)`. Each setter is a pure function on the record, and its contract
  says which slots it sets, to what, and that all other slots keep their values.
- **Wave characteristics** (`__cppClass_WavesCharacteristics`): the signed height above the
  free surface, the smoothed phase indicator H, the blended wind/wave inlet velocity, the
  normal flux used as the advective pressure condition, and the inlet VOF.
- **Relaxation zones** (`RelaxationZone`, `RelaxationZoneWaveGenerator`): the dispatch from zone
  type to kernels, the signed distance to a zone's centre plane, the flag-indexed zone table,
  and the element loop that writes the solid distance and velocity at quadrature points.

Files: `results.dfy` holds the `Option` and `Result` types. `geometry.dfy` holds 3-vectors and
3x3 matrices over `real`. `waves.dfy` holds the wave characteristics. `bc_rans.dfy` holds the
`BC_RANS` record and its setters. `relaxation.dfy` holds the relaxation zones.

The wave theory (`u`, `eta`, `mwl`) and `smoothedHeaviside` come from other libraries. Here they
are function-valued fields with no fixed meaning, so every property holds for any wave and any
smoothing function. All arithmetic is exact real arithmetic.

## Model

| member | source | states |
|---|---|---|
| `BoundaryConditions.New` | proteus/mprans/BoundaryConditions.py:22-55 | a new boundary has every flow slot and every mesh-displacement slot unset, and all three stresses equal to zero |
| `BoundaryConditions.Reset` | proteus/mprans/BoundaryConditions.py:57-81 | all nineteen flow slots become unset; the mesh-motion slots, the orientation and `BC_type` are unchanged |
| `BoundaryConditions.ResetIdempotent` | proteus/mprans/BoundaryConditions.py:57-81 | resetting twice is the same as resetting once, and a new boundary is already reset |
| `BoundaryConditions.SetNonMaterial` | proteus/mprans/BoundaryConditions.py:83-93 | the label becomes NonMaterial; the advective VOF flux and the diffusive u, v, w fluxes are exactly the slots set to 0; every other flow slot is unset; mesh motion is unchanged |
| `BoundaryConditions.SetTank` | proteus/mprans/BoundaryConditions.py:95-105 | fails exactly when the orientation is empty, or has one non-±1 component; otherwise, for the first of x, y, z whose component is ±1 (z only if the orientation has a third component), the displacement is set to 0 and the stress is unset; all other mesh slots, every flow slot and the label are unchanged |
| `BoundaryConditions.TankWithoutAlignedAxis` | proteus/mprans/BoundaryConditions.py:95-105 | if no axis is aligned, `setTank` returns the boundary unchanged |
| `BoundaryConditions.SetFixedNodes` | proteus/mprans/BoundaryConditions.py:107-116 | all three displacements and all three stresses become 0; flow slots and the label are unchanged |
| `BoundaryConditions.SetNoSlip` | proteus/mprans/BoundaryConditions.py:118-130 | the label becomes NoSlip; exactly u/v/w Dirichlet, p and VOF advective, k Dirichlet and dissipation diffusive are set to 0; every other flow slot is unset; mesh motion is unchanged |
| `BoundaryConditions.SetFreeSlip` | proteus/mprans/BoundaryConditions.py:132-147 | the label becomes FreeSlip; exactly p/u/v/w/VOF advective, k Dirichlet and u/v/w/dissipation diffusive are set to 0; every other flow slot is unset; mesh motion is unchanged |
| `BoundaryConditions.FlowSettersForgetHistory` | proteus/mprans/BoundaryConditions.py:83-147 | a reset or an earlier flow setter has no effect on the result of a later flow setter |
| `BoundaryConditions.FlowAndMeshSettersCommute` | proteus/mprans/BoundaryConditions.py:83-147 | `setFixedNodes` commutes with `reset` and with each labelling flow setter |
| `BoundaryConditions.Atmosphere` | proteus/mprans/BoundaryConditions.py:162-184 | the open-air configuration: label OpenAir; p Dirichlet 0; VOF Dirichlet `vof_air`; u/v/w Dirichlet 0 exactly when the matching orientation component is ±1, otherwise unset; u/v/w/k/dissipation diffusive 0; every other flow slot unset; mesh motion unchanged |
| `BoundaryConditions.SetAtmosphere` | proteus/mprans/BoundaryConditions.py:149-184 | succeeds exactly when the boundary's own orientation has three components, and then gives the open-air configuration for that orientation |
| `BoundaryConditions.SetAtmosphereOriented` | proteus/mprans/BoundaryConditions.py:149-165 | the open-air configuration for the explicit orientation if one is given, otherwise for the boundary's own; with no explicit orientation it behaves the same as `SetAtmosphere` |
| `BoundaryConditions.AtmosphereIgnoresOrientation` | proteus/mprans/BoundaryConditions.py:162-178 | for a boundary normal to x, configured with an explicit orientation normal to y, the source zeroes u and leaves v unset; the corrected setter does the opposite |
| `BoundaryConditions.SetMoveMesh` | proteus/mprans/BoundaryConditions.py:188-214 | each of hx/hy/hz becomes the matching component of the rigid-body displacement, using the identity when no rotation is given; stresses, flow slots and the label are unchanged |
| `BoundaryConditions.MoveMeshTranslation` | proteus/mprans/BoundaryConditions.py:205-227 | with the default rotation, every point x is displaced by exactly `h`, whatever the last position was |
| `BoundaryConditions.ReferencePointDisplacement` | proteus/mprans/BoundaryConditions.py:216-227 | for any rotation, the body's last position is displaced by exactly `h` |
| `BoundaryConditions.MoveMeshReferencePoint` | proteus/mprans/BoundaryConditions.py:188-227 | after `setMoveMesh`, the displacement slots give `h` at the body's last position, for any rotation |
| `BoundaryConditions.InletWaves` | proteus/mprans/BoundaryConditions.py:262-267 | the inlet's vertical axis defaults to nd-1, its wind defaults to zero, and it takes the boundary orientation as its own |
| `BoundaryConditions.SetUnsteadyTwoPhaseVelocityInlet` | proteus/mprans/BoundaryConditions.py:238-303 | after a reset, exactly u/v/w Dirichlet, VOF Dirichlet and p advective are functions and every other flow slot is unset; the velocity slots together give the blended inlet velocity; VOF gives H; the pressure slot always equals the orientation dotted with the velocity the u/v/w slots impose |
| `BoundaryConditions.InletRegimes` | proteus/mprans/BoundaryConditions.py:624-669 | at the configured inlet, above the smoothing band: velocity = wind, VOF = 1, flux = b_or·wind. Below the band: velocity = wave velocity, VOF = 0, flux = b_or·wave velocity |
| `Waves.NewCharacteristics` | proteus/mprans/BoundaryConditions.py:611-622 | a missing wind speed becomes the zero vector; every other argument is stored unchanged |
| `Waves.PhiVanishesAtSurfacePoint` | proteus/mprans/BoundaryConditions.py:658-664 | when the elevation does not depend on the vertical coordinate, phi is zero at `x_max`, so `x_max` is on the free surface that phi describes |
| `Waves.SurfacePoint` | proteus/mprans/BoundaryConditions.py:636-640 | the point `x_max` lies on the free surface seen from x, and has the same horizontal coordinates as x |
| `Waves.SmoothingH` | proteus/mprans/BoundaryConditions.py:671-678 | H is defined for every phi and every smoothing width; H = 1 when phi ≥ smoothing; H = 0 when phi is below both smoothing and -smoothing; H is the smoothed Heaviside inside the band |
| `Waves.SharpInterface` | proteus/mprans/BoundaryConditions.py:671-678 | with smoothing ≤ 0, H is a sharp step at phi = smoothing |
| `Waves.SmoothingHMonotone` | proteus/mprans/BoundaryConditions.py:671-678 | if the smoothed Heaviside is monotone with values in [0, 1] on the band, then H lies in [0, 1] and does not decrease as phi increases |
| `Waves.Velocity` | proteus/mprans/BoundaryConditions.py:624-647 | when H = 1 the velocity is the wind; when H = 0 it is the wave velocity at x; when H = 0.5 the water term drops out, leaving half the wind; when H is outside [0, 1] only the wind term remains |
| `Waves.VelocityRegimes` | proteus/mprans/BoundaryConditions.py:624-647 | above the smoothing band the velocity is the wind; below it the velocity is the wave velocity at x |
| `Waves.PressureRegimes` | proteus/mprans/BoundaryConditions.py:649-656 | above the band the flux is b_or·wind; below it the flux is b_or·(wave velocity) |
| `Waves.Vof` | proteus/mprans/BoundaryConditions.py:666-669 | the inlet VOF is H: 1 above the band, 0 below it |
| `Waves.VofBounded` | proteus/mprans/BoundaryConditions.py:666-678 | the inlet VOF lies in [0, 1] when the smoothed Heaviside is well behaved |
| `Relaxation.NewZone` | proteus/mprans/BoundaryConditions.py:470-487 | a new zone has no kernels bound; a given wave is stored without a boundary orientation, with vertical axis nd-1 by default and with the given wind |
| `Relaxation.CalculateInit` | proteus/mprans/BoundaryConditions.py:490-533 | only the kernels change. Generation zones use signed distance and the wave velocity; absorption zones use signed distance and zero velocity; porous zones use `epsFact_solid` and zero velocity; any other type leaves the zone unchanged. The bound `calculate_phi` gives the distance from the zone centre along the orientation (or `epsFact_solid` for porous zones), and the bound `calculate_vel` gives the wave velocity at (x, t) (or the zero vector) |
| `Relaxation.CalculateInitIdempotent` | proteus/mprans/BoundaryConditions.py:490-501 | initialising a zone twice binds the same kernels as initialising it once |
| `Relaxation.PhiSolidProjection` | proteus/mprans/BoundaryConditions.py:509-521 | the solid phi is 0 at the zone centre, and falls by d·\|o\|² when x moves a distance d along the orientation o |
| `Relaxation.GeneratorCalculateInit` | proteus/mprans/BoundaryConditions.py:562-571 | `max_flag` is the largest key, or 0 if there is none; the table has length `max_flag + 1`; it holds the initialised zone of each key at that key's index, and None everywhere else |
| `Relaxation.Iterate` | proteus/mprans/BoundaryConditions.py:576-608 | an element is rewritten only when its flag is admitted and has a zone; its phi and velocity at each quadrature point are then that zone's values; every other element keeps its old values; in 2-D the third velocity component is never written |
| `Relaxation.IterateAsWritten` | proteus/mprans/BoundaryConditions.py:589-606 | the loop as written rewrites exactly the elements whose flag has a zone and is strictly below `max_flag` |
| `Relaxation.IterateZones` | proteus/mprans/BoundaryConditions.py:576-608 | with every table index admitted, the loop rewrites exactly the elements whose flag has a zone, each using its own zone |
| `Relaxation.HighestFlagNeverRelaxed` | proteus/mprans/BoundaryConditions.py:589-593 | when there is at least one zone, the zone at `max_flag` is in the table, but the strict test never admits its flag |
| `Relaxation.TableSelectsExactlyZonedFlags` | proteus/mprans/BoundaryConditions.py:562-593 | with the whole table admitted, a flag is selected exactly when it has a zone |

## Left out

- `src/MeshAdaptPUMI/MeshAdaptPUMI.h` is not part of this model. It only declares a mesh-adaptation driver that delegates to an external meshing engine and to MPI, and it contains no function bodies.
- `proteus/config/__init__.py` is not part of this model. It picks a configuration module from the host name when imported.
- The `BoundaryCondition` and `BC_Base` classes are not part of this model. `resetBC` is modelled as making a slot `Unset`, `setConstantBC(c)` as `Const(c)`, `uOfXT = None` as `Unset`, and `uOfXT = 0` as `Const(0)`. The label a boundary has before any labelling setter runs is modelled as `Unspecified`.
- `setTwoPhaseVelocityInlet` and `setHydrostaticPressureOutletWithDepth` are not modelled. Their bodies are commented out, so they do nothing.
- The wave theory (`u`, `eta`, `mwl`) and `smoothedHeaviside` have no fixed meaning here. IEEE floating point, numpy `dot` and Cython buffers are replaced by exact real arithmetic.
- SetMoveMesh: the source's displacement functions read `body_python_*` each time they are called, so they see later in-place updates to those arrays. The model fixes those values when the setter runs and does not store them as attributes.
- SetUnsteadyTwoPhaseVelocityInlet: requires a three-component orientation when the inlet is set. Under the Cython reading described below, the source only fails later, the first time the advective pressure condition is evaluated. The `__cpp_UnsteadyTwoPhaseVelocityInlet_*` wrappers and `__x_to_cpp` only copy x into a buffer, so they are folded into the function slots.
- SetAtmosphere: a failure returns no record. The source has already relabelled and reset the boundary, and set some slots, before it raises on the missing component.
- SetTank: a failure returns no record. This matches the source, because the source raises before any update.
- Relaxation.Iterate: models one mesh level. The list of levels, the `q` dictionary and the time-integration object become plain sequence arguments and a time `t`. The in-place array writes become returned sequences. The undefined `x` at line 595 is taken to be the quadrature point `qx[eN, k]`.
- Double-underscore names are read throughout as the classes and methods they name, as Cython compiles them, and not with Python's private-name mangling. Lines 267 and 482 construct `__cppClass_WavesCharacteristics`. Lines 279-303 and 533 call `self.waves.__cpp_calculate_*`. Read as plain Python, line 267 raises NameError just after `self.reset()` at line 262 has cleared the nineteen flow slots, and line 482 raises NameError as well. The calls at lines 279-303 and 533 raise AttributeError whenever an inlet slot or a wave velocity kernel is evaluated. That plain-Python behaviour is not modelled; `BoundaryConditions.SetUnsteadyTwoPhaseVelocityInlet`, `BoundaryConditions.InletRegimes`, `Relaxation.NewZone` and `Relaxation.CalculateVel` all follow the Cython reading. Calls within one class (the `__cpp_MoveMesh_*` lambdas at lines 212-214, `__cpp_iterate` at line 574) resolve the same way under either reading.
- Relaxation.CalculateInit: lines 470, 504 and 527 are read with Cython cdef-class semantics. `__cinit__` is the zone's constructor (modelled by `Relaxation.NewZone`), and `phi` and `uu` are kernels that receive the zone as their first argument (modelled by `Relaxation.CalculatePhi` and `Relaxation.CalculateVel`). The missing `cdef` declarations are what would make that reading hold. Read as plain Python, `__cinit__` is never called, and `self.phi(self, x)` and `self.uu(self, x, t)` pass the zone twice to a bound method, so every call raises TypeError. That behaviour is not modelled.
- Relaxation.Iterate: requires every zone the loop uses to be ready: initialised with a known type, and holding a wave if it is a generation zone. The source fails on the first element that uses a zone that is not ready.
- Default argument values are not modelled: callers pass every value. This covers `b_i=0.` and `nd=None` of `BC_RANS`; `vof_air=1.` of `setAtmosphere`; `h=(0., 0., 0.)` of `setMoveMesh`; `smoothing=0.`, `vof_air=1.` and `vof_water=0.` of `setUnsteadyTwoPhaseVelocityInlet`; and `smoothing=0.`, `vof_water=0.` and `vof_air=1.` of the wave characteristics. The optional arguments whose `None` changes behaviour (`orientation`, `rot_matrix`, `vert_axis`, `wind_speed` and the characteristics' `b_or`) are `Option` values. The domain dimension is always 1, 2 or 3, so `nd=None` is not representable.
- A boundary without an orientation (`b_or=None`) has the empty sequence as its orientation. Every setter that reads three components of it then fails, as the source fails on indexing `None`. The `self._b_or is not None` test at line 163 is therefore not modelled separately: with no orientation anywhere, `setAtmosphere` fails either way.
- Material flags and zone keys are natural numbers. The negative indexing a Python array would allow is not modelled. Vertical axes are restricted to 0, 1 and 2.
- Relaxation.NewZone: requires the domain dimension to be 1, 2 or 3. The source takes it from the shape's domain. The zone constructor's default argument values are not modelled. Its `shape` argument is stored and read only for `shape.Domain.nd` (lines 474-475 and 480); the `nd` argument stands for that value, so the failure at line 475 with the default `shape=None` is not modelled. Only `he` and `ecH` are unused. `attachModel`, `attachAuxiliaryVariables` and `calculate` are not modelled: they only store their arguments, do nothing, or forward to the loop.
- Waves.Vof: follows the source and returns H. It does not map H onto the stored `vof_air`/`vof_water` values.

## Findings

| source | as written | input that shows it | evidently intended | confidence | as-written member | corrected member |
|---|---|---|---|---|---|---|
| proteus/mprans/BoundaryConditions.py:591 | the element loop tests `mType < self.max_flag`, but the zone table has `max_flag + 1` entries | zones `{1: z}`: `max_flag` is 1, and elements of material 1 are never relaxed | `mType <= self.max_flag`, so every zone in the table is applied | not executed; high | `Relaxation.IterateAsWritten`, `Relaxation.HighestFlagNeverRelaxed` | `Relaxation.IterateZones`, `Relaxation.TableSelectsExactlyZonedFlags` |
| proteus/mprans/BoundaryConditions.py:163-178 | `setAtmosphere` computes `orientation` but then reads `self._b_or` | boundary orientation (1, 0, 0) with `orientation=(0, 1, 0)`: u is zeroed and v is left unset | use `orientation`, falling back to `self._b_or`, as the docstring says | not executed; medium | `BoundaryConditions.SetAtmosphere`, `BoundaryConditions.AtmosphereIgnoresOrientation` | `BoundaryConditions.SetAtmosphereOriented` |

=== FILE: bc_rans.dfy ===
/** The boundary-condition record of a two-phase RANS boundary (`BC_RANS`): nineteen flow
    slots, six mesh-motion slots, a boundary-type label and the boundary orientation, and
    the setters that reconfigure them. Every setter is a pure record update. */
module BoundaryConditions {
  import opened Results
  import opened Geometry
  import Waves

  /** One boundary condition: unset (`uOfXT` is None), a constant (`setConstantBC`), or a
      function of position and time. */
  datatype Slot = Unset | Const(c: real) | Func(f: (Vec3, real) -> real)

  const ZeroBC := Const(0.0)

  /** The `BC_type` label. Its value before any labelling setter runs is set by the base
      class, which is not part of this model: `Unspecified` stands for it. */
  datatype BCType = Unspecified | NonMaterial | NoSlip | FreeSlip | OpenAir

  /** Names of the nineteen flow slots. */
  datatype FlowName =
    | PDirichlet | UDirichlet | VDirichlet | WDirichlet | VofDirichlet | KDirichlet | DissipationDirichlet
    | PAdvective | UAdvective | VAdvective | WAdvective | VofAdvective | KAdvective | DissipationAdvective
    | UDiffusive | VDiffusive | WDiffusive | KDiffusive | DissipationDiffusive

  /** Spatial dimension of the domain. */
  type Dim = n: int | 1 <= n <= 3 witness 3

  /** Raised when a setter reads an orientation component the orientation does not have. */
  datatype BCError = IndexOutOfRange(index: nat)

  datatype BC = BC(
    bcType: BCType,
    bOr: seq<real>,
    nd: Dim,
    pDirichlet: Slot, uDirichlet: Slot, vDirichlet: Slot, wDirichlet: Slot,
    vofDirichlet: Slot, kDirichlet: Slot, dissipationDirichlet: Slot,
    pAdvective: Slot, uAdvective: Slot, vAdvective: Slot, wAdvective: Slot,
    vofAdvective: Slot, kAdvective: Slot, dissipationAdvective: Slot,
    uDiffusive: Slot, vDiffusive: Slot, wDiffusive: Slot, kDiffusive: Slot, dissipationDiffusive: Slot,
    hxDirichlet: Slot, hyDirichlet: Slot, hzDirichlet: Slot,
    uStress: Slot, vStress: Slot, wStress: Slot)
  {
    /** The flow slot called `n`. */
    function Flow(n: FlowName): Slot {
      match n
      case PDirichlet => pDirichlet
      case UDirichlet => uDirichlet
      case VDirichlet => vDirichlet
      case WDirichlet => wDirichlet
      case VofDirichlet => vofDirichlet
      case KDirichlet => kDirichlet
      case DissipationDirichlet => dissipationDirichlet
      case PAdvective => pAdvective
      case UAdvective => uAdvective
      case VAdvective => vAdvective
      case WAdvective => wAdvective
      case VofAdvective => vofAdvective
      case KAdvective => kAdvective
      case DissipationAdvective => dissipationAdvective
      case UDiffusive => uDiffusive
      case VDiffusive => vDiffusive
      case WDiffusive => wDiffusive
      case KDiffusive => kDiffusive
      case DissipationDiffusive => dissipationDiffusive
    }

    /** The mesh-displacement Dirichlet slot of axis `a` (hx, hy, hz). */
    function MeshH(a: Axis): Slot {
      if a == 0 then hxDirichlet else if a == 1 then hyDirichlet else hzDirichlet
    }

    /** The mesh stress slot of axis `a` (u, v, w). */
    function Stress(a: Axis): Slot {
      if a == 0 then uStress else if a == 1 then vStress else wStress
    }
  }

  /** The velocity Dirichlet slot of axis `a`. */
  function VelocityDirichlet(a: Axis): FlowName {
    if a == 0 then UDirichlet else if a == 1 then VDirichlet else WDirichlet
  }

  /** `a` and `b` agree on everything but their flow slots and label. */
  ghost predicate SameMeshMotion(a: BC, b: BC) {
    && a.bOr == b.bOr
    && a.nd == b.nd
    && forall ax: Axis :: a.MeshH(ax) == b.MeshH(ax) && a.Stress(ax) == b.Stress(ax)
  }

  ghost predicate SameFlow(a: BC, b: BC) {
    forall n: FlowName :: a.Flow(n) == b.Flow(n)
  }

  /** `c` is 1 or -1: the boundary is normal to that axis. */
  predicate Aligned(c: real) {
    c == 1.0 || c == -1.0
  }

  /** Axis `a` is the first of x, y, z along which orientation `o` is aligned. */
  ghost predicate FirstAligned(o: seq<real>, a: Axis) {
    a < |o| && Aligned(o[a]) && forall j :: 0 <= j < a ==> !Aligned(o[j])
  }

  /** A fresh boundary: every flow and displacement slot unset, the three stresses zero. */
  function New(bOr: seq<real>, nd: Dim): (bc: BC)
    ensures forall n: FlowName :: bc.Flow(n) == Unset
    ensures forall a: Axis :: bc.MeshH(a) == Unset && bc.Stress(a) == ZeroBC
    ensures bc.bOr == bOr && bc.nd == nd && bc.bcType == Unspecified
  {
    BC(Unspecified, bOr, nd,
       Unset, Unset, Unset, Unset, Unset, Unset, Unset,
       Unset, Unset, Unset, Unset, Unset, Unset, Unset,
       Unset, Unset, Unset, Unset, Unset,
       Unset, Unset, Unset,
       ZeroBC, ZeroBC, ZeroBC)
  }

  /** `reset`: unsets every flow slot; the mesh-motion slots and the label are kept. */
  function Reset(bc: BC): (r: BC)
    ensures forall n: FlowName :: r.Flow(n) == Unset
    ensures SameMeshMotion(r, bc) && r.bcType == bc.bcType
  {
    bc.(pDirichlet := Unset, uDirichlet := Unset, vDirichlet := Unset, wDirichlet := Unset,
        vofDirichlet := Unset, kDirichlet := Unset, dissipationDirichlet := Unset,
        pAdvective := Unset, uAdvective := Unset, vAdvective := Unset, wAdvective := Unset,
        vofAdvective := Unset, kAdvective := Unset, dissipationAdvective := Unset,
        uDiffusive := Unset, vDiffusive := Unset, wDiffusive := Unset, kDiffusive := Unset,
        dissipationDiffusive := Unset)
  }

  const NonMaterialZero: set<FlowName> := {VofAdvective, UDiffusive, VDiffusive, WDiffusive}

  const NoSlipZero: set<FlowName> :=
    {UDirichlet, VDirichlet, WDirichlet, PAdvective, VofAdvective, KDirichlet, DissipationDiffusive}

  const FreeSlipZero: set<FlowName> :=
    {PAdvective, UAdvective, VAdvective, WAdvective, VofAdvective, KDirichlet,
     UDiffusive, VDiffusive, WDiffusive, DissipationDiffusive}

  /** `setNonMaterial`: diffusive velocity fluxes and advective VOF flux zero, nothing else set. */
  function SetNonMaterial(bc: BC): (r: BC)
    ensures r.bcType == NonMaterial
    ensures forall n: FlowName :: r.Flow(n) == (if n in NonMaterialZero then ZeroBC else Unset)
    ensures SameMeshMotion(r, bc)
  {
    Reset(bc).(bcType := NonMaterial, vofAdvective := ZeroBC,
               uDiffusive := ZeroBC, vDiffusive := ZeroBC, wDiffusive := ZeroBC)
  }

  /** `setNoSlip`: zero velocity, zero advective pressure and VOF fluxes, zero kappa and
      zero diffusive dissipation flux, nothing else set. */
  function SetNoSlip(bc: BC): (r: BC)
    ensures r.bcType == NoSlip
    ensures forall n: FlowName :: r.Flow(n) == (if n in NoSlipZero then ZeroBC else Unset)
    ensures SameMeshMotion(r, bc)
  {
    Reset(bc).(bcType := NoSlip,
               uDirichlet := ZeroBC, vDirichlet := ZeroBC, wDirichlet := ZeroBC,
               pAdvective := ZeroBC, vofAdvective := ZeroBC, kDirichlet := ZeroBC,
               dissipationDiffusive := ZeroBC)
  }

  /** `setFreeSlip`: zero advective fluxes of p, u, v, w, VOF, zero kappa, zero diffusive
      fluxes of u, v, w and dissipation, nothing else set. */
  function SetFreeSlip(bc: BC): (r: BC)
    ensures r.bcType == FreeSlip
    ensures forall n: FlowName :: r.Flow(n) == (if n in FreeSlipZero then ZeroBC else Unset)
    ensures SameMeshMotion(r, bc)
  {
    Reset(bc).(bcType := FreeSlip,
               pAdvective := ZeroBC, uAdvective := ZeroBC, vAdvective := ZeroBC,
               wAdvective := ZeroBC, vofAdvective := ZeroBC, kDirichlet := ZeroBC,
               uDiffusive := ZeroBC, vDiffusive := ZeroBC, wDiffusive := ZeroBC,
               dissipationDiffusive := ZeroBC)
  }

  /** `setTank`: fixes the mesh along the first axis, in the order x, y, z, to which the
      boundary is normal, and drops that axis's stress. The z test is guarded by the length
      of the orientation, the x and y tests are not. */
  function SetTank(bc: BC): (r: Result<BC, BCError>)
    ensures r.Success? <==> |bc.bOr| >= 2 || (|bc.bOr| == 1 && Aligned(bc.bOr[0]))
    ensures r.Success? ==> SameFlow(r.value, bc) && r.value.bcType == bc.bcType
    ensures r.Success? ==> r.value.bOr == bc.bOr && r.value.nd == bc.nd
    ensures r.Success? ==> forall a: Axis ::
              && r.value.MeshH(a) == (if FirstAligned(bc.bOr, a) then ZeroBC else bc.MeshH(a))
              && r.value.Stress(a) == (if FirstAligned(bc.bOr, a) then Unset else bc.Stress(a))
  {
    var o := bc.bOr;
    if |o| < 1 then Failure(IndexOutOfRange(0))
    else if Aligned(o[0]) then Success(bc.(hxDirichlet := ZeroBC, uStress := Unset))
    else if |o| < 2 then Failure(IndexOutOfRange(1))
    else if Aligned(o[1]) then Success(bc.(hyDirichlet := ZeroBC, vStress := Unset))
    else if |o| > 2 && Aligned(o[2]) then Success(bc.(hzDirichlet := ZeroBC, wStress := Unset))
    else Success(bc)
  }

  /** When the boundary is normal to none of the axes, `setTank` changes nothing. */
  lemma TankWithoutAlignedAxis(bc: BC)
    requires |bc.bOr| >= 2
    requires forall a: Axis :: !FirstAligned(bc.bOr, a)
    ensures SetTank(bc) == Success(bc)
  {
    assert !FirstAligned(bc.bOr, 0);
    assert !FirstAligned(bc.bOr, 1);
    if |bc.bOr| > 2 {
      assert !FirstAligned(bc.bOr, 2);
    }
  }

  /** `setFixedNodes`: every mesh displacement and stress is zero; flow slots are kept. */
  function SetFixedNodes(bc: BC): (r: BC)
    ensures forall a: Axis :: r.MeshH(a) == ZeroBC && r.Stress(a) == ZeroBC
    ensures SameFlow(r, bc) && r.bcType == bc.bcType && r.bOr == bc.bOr && r.nd == bc.nd
  {
    bc.(hxDirichlet := ZeroBC, hyDirichlet := ZeroBC, hzDirichlet := ZeroBC,
        uStress := ZeroBC, vStress := ZeroBC, wStress := ZeroBC)
  }

  const AtmosphereZeroFlux: set<FlowName> := {UDiffusive, VDiffusive, WDiffusive, KDiffusive, DissipationDiffusive}

  /** The open-air configuration of `bc` for orientation `o`: zero pressure, air VOF, a
      zero velocity component exactly along the axes `o` is normal to, zero diffusive
      fluxes, every other flow slot unset, mesh motion untouched. */
  function Atmosphere(bc: BC, o: seq<real>, vofAir: real): (r: BC)
    requires |o| >= 3
    ensures r.bcType == OpenAir && SameMeshMotion(r, bc)
    ensures r.pDirichlet == ZeroBC && r.vofDirichlet == Const(vofAir)
    ensures forall a: Axis :: r.Flow(VelocityDirichlet(a)) == (if Aligned(o[a]) then ZeroBC else Unset)
    ensures forall n: FlowName :: n in AtmosphereZeroFlux ==> r.Flow(n) == ZeroBC
    ensures forall n: FlowName ::
              n !in AtmosphereZeroFlux && n !in {PDirichlet, VofDirichlet, UDirichlet, VDirichlet, WDirichlet}
              ==> r.Flow(n) == Unset
  {
    Reset(bc).(bcType := OpenAir,
               pDirichlet := ZeroBC,
               uDirichlet := if Aligned(o[0]) then ZeroBC else Unset,
               vDirichlet := if Aligned(o[1]) then ZeroBC else Unset,
               wDirichlet := if Aligned(o[2]) then ZeroBC else Unset,
               vofDirichlet := Const(vofAir),
               uDiffusive := ZeroBC, vDiffusive := ZeroBC, wDiffusive := ZeroBC,
               kDiffusive := ZeroBC, dissipationDiffusive := ZeroBC)
  }

  /** `setAtmosphere` as written: the `orientation` argument is accepted but the boundary's
      own orientation is what is read, all three components of it. */
  function SetAtmosphere(bc: BC, orientation: Option<seq<real>>, vofAir: real): (r: Result<BC, BCError>)
    ensures r.Success? <==> |bc.bOr| >= 3
    ensures r.Success? ==> r.value == Atmosphere(bc, bc.bOr, vofAir)
  {
    if |bc.bOr| < 3 then Failure(IndexOutOfRange(|bc.bOr|))
    else Success(Atmosphere(bc, bc.bOr, vofAir))
  }

  /** `setAtmosphere` as its documentation describes it: an explicit orientation takes
      precedence over the boundary's own. */
  function SetAtmosphereOriented(bc: BC, orientation: Option<seq<real>>, vofAir: real): (r: Result<BC, BCError>)
    ensures var o := if orientation.Some? then orientation.value else bc.bOr;
            && (r.Success? <==> |o| >= 3)
            && (r.Success? ==> r.value == Atmosphere(bc, o, vofAir))
    ensures orientation.None? ==> r == SetAtmosphere(bc, orientation, vofAir)
  {
    var o := ValueOr(orientation, bc.bOr);
    if |o| < 3 then Failure(IndexOutOfRange(|o|))
    else Success(Atmosphere(bc, o, vofAir))
  }

  /** The source's `setAtmosphere` ignores an explicit orientation: a boundary created
      normal to x but configured with orientation y still gets a zero u and an unset v. */
  lemma AtmosphereIgnoresOrientation()
    ensures var bc := New([1.0, 0.0, 0.0], 3);
            var given := Some([0.0, 1.0, 0.0]);
            && SetAtmosphere(bc, given, 1.0).value.uDirichlet == ZeroBC
            && SetAtmosphere(bc, given, 1.0).value.vDirichlet == Unset
            && SetAtmosphereOriented(bc, given, 1.0).value.uDirichlet == Unset
            && SetAtmosphereOriented(bc, given, 1.0).value.vDirichlet == ZeroBC
  {
    var bc := New([1.0, 0.0, 0.0], 3);
    var given := Some([0.0, 1.0, 0.0]);
    assert VelocityDirichlet(0) == UDirichlet && VelocityDirichlet(1) == VDirichlet;
    assert bc.bOr[0] == 1.0 && bc.bOr[1] == 0.0;
    assert given.value[0] == 0.0 && given.value[1] == 1.0;
  }

  /** The displacement `__cpp_MoveMesh_h` gives point `x`: its offset from the body's last
      position, rotated by `rot` (row vector times matrix), minus that offset, plus `h`. */
  function Displacement(lastPos: Vec3, h: Vec3, rot: Mat3, x: Vec3): Vec3 {
    var x0 := Sub(x, lastPos);
    Add(Sub(RowTimes(x0, rot), x0), h)
  }

  /** Component `a` of that displacement at time `t`, which it does not depend on. */
  function DisplacementAt(lastPos: Vec3, h: Vec3, rot: Mat3, a: Axis, x: Vec3, t: real): real {
    Displacement(lastPos, h, rot, x).Get(a)
  }

  /** The slot imposing component `a` of the rigid-body displacement. */
  function DisplacementSlot(lastPos: Vec3, h: Vec3, rot: Mat3, a: Axis): (s: Slot)
    ensures s.Func?
  {
    Func((x, t) => DisplacementAt(lastPos, h, rot, a, x, t))
  }

  lemma DisplacementSlotValue(lastPos: Vec3, h: Vec3, rot: Mat3, a: Axis, x: Vec3, t: real)
    ensures DisplacementSlot(lastPos, h, rot, a).f(x, t) == Displacement(lastPos, h, rot, x).Get(a)
  {
  }

  /** `setMoveMesh`: each displacement slot becomes the matching component of the rigid-body
      displacement; a missing rotation means the identity. */
  function SetMoveMesh(bc: BC, lastPos: Vec3, h: Vec3, rot: Option<Mat3>): (r: BC)
    ensures forall a: Axis :: r.MeshH(a) == DisplacementSlot(lastPos, h, ValueOr(rot, Identity), a)
    ensures forall a: Axis :: r.Stress(a) == bc.Stress(a)
    ensures SameFlow(r, bc) && r.bcType == bc.bcType && r.bOr == bc.bOr && r.nd == bc.nd
  {
    var m := ValueOr(rot, Identity);
    bc.(hxDirichlet := DisplacementSlot(lastPos, h, m, 0),
        hyDirichlet := DisplacementSlot(lastPos, h, m, 1),
        hzDirichlet := DisplacementSlot(lastPos, h, m, 2))
  }

  /** Without a rotation every point of the boundary is displaced by exactly `h`,
      wherever the body was before. */
  lemma MoveMeshTranslation(bc: BC, lastPos: Vec3, h: Vec3, x: Vec3, t: real, a: Axis)
    ensures SetMoveMesh(bc, lastPos, h, None).MeshH(a).f(x, t) == h.Get(a)
  {
    DisplacementSlotValue(lastPos, h, Identity, a, x, t);
    RowTimesIdentity(Sub(x, lastPos));
  }

  /** Whatever the rotation, the body's reference point itself moves by `h`. */
  lemma MoveMeshReferencePoint(bc: BC, lastPos: Vec3, h: Vec3, rot: Option<Mat3>, t: real, a: Axis)
    ensures SetMoveMesh(bc, lastPos, h, rot).MeshH(a).f(lastPos, t) == h.Get(a)
  {
    var m := ValueOr(rot, Identity);
    DisplacementSlotValue(lastPos, h, m, a, lastPos, t);
    ReferencePointDisplacement(lastPos, h, m);
  }

  lemma ReferencePointDisplacement(lastPos: Vec3, h: Vec3, rot: Mat3)
    ensures Displacement(lastPos, h, rot, lastPos) == h
  {
    assert Sub(lastPos, lastPos) == Zero;
    RowTimesZero(rot);
  }

  /** `reset` is idempotent, and a fresh boundary is already reset. */
  lemma ResetIdempotent(bc: BC, bOr: seq<real>, nd: Dim)
    ensures Reset(Reset(bc)) == Reset(bc)
    ensures Reset(New(bOr, nd)) == New(bOr, nd)
  {
  }

  /** The labelling flow setters forget the previous flow configuration: applying one
      after a reset or after another flow setter gives the same record as applying it alone. */
  lemma FlowSettersForgetHistory(bc: BC)
    ensures SetNoSlip(Reset(bc)) == SetNoSlip(bc)
    ensures SetNoSlip(SetFreeSlip(bc)) == SetNoSlip(bc)
    ensures SetNoSlip(SetNonMaterial(bc)) == SetNoSlip(bc)
    ensures SetFreeSlip(SetNoSlip(bc)) == SetFreeSlip(bc)
    ensures SetFreeSlip(SetNonMaterial(bc)) == SetFreeSlip(bc)
    ensures SetNonMaterial(SetNoSlip(bc)) == SetNonMaterial(bc)
    ensures SetNonMaterial(SetFreeSlip(bc)) == SetNonMaterial(bc)
  {
  }

  /** Mesh-motion setters and flow setters touch disjoint slots, so their order does not matter. */
  lemma FlowAndMeshSettersCommute(bc: BC)
    ensures SetNoSlip(SetFixedNodes(bc)) == SetFixedNodes(SetNoSlip(bc))
    ensures SetFreeSlip(SetFixedNodes(bc)) == SetFixedNodes(SetFreeSlip(bc))
    ensures SetNonMaterial(SetFixedNodes(bc)) == SetFixedNodes(SetNonMaterial(bc))
    ensures Reset(SetFixedNodes(bc)) == SetFixedNodes(Reset(bc))
  {
  }

  const InletSlots: set<FlowName> := {UDirichlet, VDirichlet, WDirichlet, VofDirichlet, PAdvective}

  /** The wave characteristics the unsteady inlet builds: the vertical axis defaults to the
      last coordinate of the domain. */
  function InletWaves(bc: BC, wave: Waves.WaveTheory, vertAxis: Option<Axis>, windSpeed: Option<Vec3>,
                      smoothing: real, vofAir: real, vofWater: real,
                      heaviside: (real, real) -> real): (w: Waves.Characteristics)
    requires |bc.bOr| >= 3
    ensures w.vertAxis == (if vertAxis.Some? then vertAxis.value else bc.nd - 1)
    ensures w.bOr == Some(Vec3(bc.bOr[0], bc.bOr[1], bc.bOr[2]))
    ensures w.windSpeed == (if windSpeed.Some? then windSpeed.value else Zero)
    ensures w.wt == wave && w.smoothing == smoothing && w.heaviside == heaviside
  {
    Waves.NewCharacteristics(wave, ValueOr(vertAxis, bc.nd - 1), windSpeed,
                             Some(Vec3(bc.bOr[0], bc.bOr[1], bc.bOr[2])),
                             smoothing, vofWater, vofAir, heaviside)
  }

  /** `setUnsteadyTwoPhaseVelocityInlet`: after a reset, the velocity, VOF and advective
      pressure slots follow the wave/wind blend; the pressure flux is always the normal
      component of the imposed velocity. */
  function SetUnsteadyTwoPhaseVelocityInlet(bc: BC, wave: Waves.WaveTheory, vertAxis: Option<Axis>,
                                            windSpeed: Option<Vec3>, smoothing: real,
                                            vofAir: real, vofWater: real,
                                            heaviside: (real, real) -> real): (r: Result<BC, BCError>)
    ensures r.Success? <==> |bc.bOr| >= 3
    ensures r.Success? ==> SameMeshMotion(r.value, bc) && r.value.bcType == bc.bcType
    ensures r.Success? ==> forall n: FlowName :: n !in InletSlots ==> r.value.Flow(n) == Unset
    ensures r.Success? ==>
              && r.value.uDirichlet.Func? && r.value.vDirichlet.Func? && r.value.wDirichlet.Func?
              && r.value.vofDirichlet.Func? && r.value.pAdvective.Func?
    ensures r.Success? ==>
              var w := InletWaves(bc, wave, vertAxis, windSpeed, smoothing, vofAir, vofWater, heaviside);
              forall x: Vec3, t: real ::
                && Vec3(r.value.uDirichlet.f(x, t), r.value.vDirichlet.f(x, t), r.value.wDirichlet.f(x, t))
                   == Waves.Velocity(w, x, t)
                && r.value.vofDirichlet.f(x, t) == Waves.H(w, x, t)
                && r.value.pAdvective.f(x, t)
                   == Dot(Vec3(bc.bOr[0], bc.bOr[1], bc.bOr[2]),
                          Vec3(r.value.uDirichlet.f(x, t), r.value.vDirichlet.f(x, t), r.value.wDirichlet.f(x, t)))
  {
    if |bc.bOr| < 3 then Failure(IndexOutOfRange(|bc.bOr|))
    else
      var w := InletWaves(bc, wave, vertAxis, windSpeed, smoothing, vofAir, vofWater, heaviside);
      Success(Reset(bc).(uDirichlet := Func((x, t) => Waves.Velocity(w, x, t).x),
                         vDirichlet := Func((x, t) => Waves.Velocity(w, x, t).y),
                         wDirichlet := Func((x, t) => Waves.Velocity(w, x, t).z),
                         vofDirichlet := Func((x, t) => Waves.Vof(w, x, t)),
                         pAdvective := Func((x, t) => Waves.Pressure(w, x, t))))
  }

  /** At the inlet, above the smoothing band the fluid moves with the wind, carries air
      (VOF 1) and its flux is the wind's normal component; below the band it moves with
      the wave, carries water (VOF 0) and its flux is the wave's normal component. */
  lemma InletRegimes(bc: BC, wave: Waves.WaveTheory, vertAxis: Option<Axis>, windSpeed: Option<Vec3>,
                     smoothing: real, vofAir: real, vofWater: real, heaviside: (real, real) -> real,
                     x: Vec3, t: real)
    requires |bc.bOr| >= 3
    ensures var r := SetUnsteadyTwoPhaseVelocityInlet(bc, wave, vertAxis, windSpeed, smoothing, vofAir, vofWater, heaviside).value;
            var w := InletWaves(bc, wave, vertAxis, windSpeed, smoothing, vofAir, vofWater, heaviside);
            var b := Vec3(bc.bOr[0], bc.bOr[1], bc.bOr[2]);
            var u := Vec3(r.uDirichlet.f(x, t), r.vDirichlet.f(x, t), r.wDirichlet.f(x, t));
            && (Waves.Phi(w, x, t) >= smoothing ==>
                  u == w.windSpeed && r.vofDirichlet.f(x, t) == 1.0 && r.pAdvective.f(x, t) == Dot(b, w.windSpeed))
            && (Waves.Phi(w, x, t) < smoothing && Waves.Phi(w, x, t) <= -smoothing ==>
                  u == wave.u(x, t) && r.vofDirichlet.f(x, t) == 0.0 && r.pAdvective.f(x, t) == Dot(b, wave.u(x, t)))
  {
    var r := SetUnsteadyTwoPhaseVelocityInlet(bc, wave, vertAxis, windSpeed, smoothing, vofAir, vofWater, heaviside).value;
    var w := InletWaves(bc, wave, vertAxis, windSpeed, smoothing, vofAir, vofWater, heaviside);
    var b := Vec3(bc.bOr[0], bc.bOr[1], bc.bOr[2]);
    var u := Vec3(r.uDirichlet.f(x, t), r.vDirichlet.f(x, t), r.wDirichlet.f(x, t));
    assert u == Waves.Velocity(w, x, t);
    assert r.vofDirichlet.f(x, t) == Waves.H(w, x, t);
    assert r.pAdvective.f(x, t) == Dot(b, u);
    Waves.VelocityRegimes(w, x, t);
  }
}

=== FILE: geometry.dfy ===
/** Three-component vectors and matrices, standing in for the `double[3]` buffers and
    numpy 3x3 arrays of the boundary-condition code. Arithmetic is exact over `real`. */
module Geometry {

  /** A coordinate index 0, 1 or 2 (x, y, z). */
  type Axis = i: int | 0 <= i < 3

  datatype Vec3 = Vec3(x: real, y: real, z: real) {

    /** Component `a`, as `v[a]` in the source. */
    function Get(a: Axis): real {
      if a == 0 then x else if a == 1 then y else z
    }

    /** This vector with component `a` replaced by `c`, as `v[a] = c`. */
    function With(a: Axis, c: real): (r: Vec3)
      ensures r.Get(a) == c
      ensures forall b: Axis :: b != a ==> r.Get(b) == Get(b)
    {
      if a == 0 then Vec3(c, y, z) else if a == 1 then Vec3(x, c, z) else Vec3(x, y, c)
    }
  }

  const Zero := Vec3(0.0, 0.0, 0.0)

  function Add(u: Vec3, v: Vec3): Vec3 {
    Vec3(u.x + v.x, u.y + v.y, u.z + v.z)
  }

  function Sub(u: Vec3, v: Vec3): Vec3 {
    Vec3(u.x - v.x, u.y - v.y, u.z - v.z)
  }

  function Scale(k: real, v: Vec3): Vec3 {
    Vec3(k * v.x, k * v.y, k * v.z)
  }

  function Dot(u: Vec3, v: Vec3): real {
    u.x * v.x + u.y * v.y + u.z * v.z
  }

  /** A 3x3 matrix given by its rows. */
  datatype Mat3 = Mat3(r0: Vec3, r1: Vec3, r2: Vec3)

  const Identity := Mat3(Vec3(1.0, 0.0, 0.0), Vec3(0.0, 1.0, 0.0), Vec3(0.0, 0.0, 1.0))

  /** Row vector times matrix, `np.dot(v, m)` for a 3-vector `v` and a 3x3 array `m`. */
  function RowTimes(v: Vec3, m: Mat3): Vec3 {
    Add(Add(Scale(v.x, m.r0), Scale(v.y, m.r1)), Scale(v.z, m.r2))
  }

  lemma RowTimesZero(m: Mat3)
    ensures RowTimes(Zero, m) == Zero
  {
  }

  lemma RowTimesIdentity(v: Vec3)
    ensures RowTimes(v, Identity) == v
  {
  }
}

=== FILE: relaxation.dfy ===
/** Relaxation zones (wave generation, absorption, porous) and the generator that applies
    them element by element: the zone kernels chosen by zone type, the flag-indexed zone
    table, and the loop writing the solid distance and velocity at quadrature points. */
module Relaxation {
  import opened Results
  import opened Geometry
  import Waves

  /** The velocity kernel a zone's `calculate_init` binds. */
  datatype VelocityRule = WaveVelocity | ZeroVelocity

  /** The distance kernel a zone's `calculate_init` binds. */
  datatype PhiRule = SignedDistance | PorousConstant

  datatype Kernels = Kernels(vel: VelocityRule, phi: PhiRule)

  /** A relaxation zone. `kernels` is None until `calculate_init` binds a pair of kernels. */
  datatype Zone = Zone(
    zoneType: string,
    center: Vec3,
    orientation: Vec3,
    epsFactSolid: real,
    waves: Option<Waves.Characteristics>,
    dragAlpha: real,
    dragBeta: real,
    porosity: real,
    kernels: Option<Kernels>)

  /** The zone constructor: a wave, when given, is wrapped in characteristics without a
      boundary orientation, with the vertical axis defaulting to the last coordinate. */
  function NewZone(zoneType: string, center: Vec3, orientation: Vec3, epsFactSolid: real,
                   wave: Option<Waves.WaveTheory>, nd: int, windSpeed: Vec3,
                   dragAlpha: real, dragBeta: real, porosity: real, vertAxis: Option<Axis>,
                   smoothing: real, vofWater: real, vofAir: real,
                   heaviside: (real, real) -> real): (z: Zone)
    requires 1 <= nd <= 3
    ensures z.kernels.None?
    ensures z.waves.Some? <==> wave.Some?
    ensures z.waves.Some? ==>
              && z.waves.value.wt == wave.value
              && z.waves.value.vertAxis == (if vertAxis.Some? then vertAxis.value else nd - 1)
              && z.waves.value.bOr.None?
              && z.waves.value.windSpeed == windSpeed
    ensures z.zoneType == zoneType && z.center == center && z.orientation == orientation
    ensures z.epsFactSolid == epsFactSolid
  {
    var w := if wave.Some? then
               Some(Waves.NewCharacteristics(wave.value, ValueOr(vertAxis, nd - 1), Some(windSpeed), None,
                                             smoothing, vofWater, vofAir, heaviside))
             else None;
    Zone(zoneType, center, orientation, epsFactSolid, w, dragAlpha, dragBeta, porosity, None)
  }

  /** Signed distance of `x` behind the zone's centre plane, measured along the orientation. */
  function PhiSolid(z: Zone, x: Vec3): real {
    Dot(z.orientation, Sub(z.center, x))
  }

  /** `calculate_phi`, through the bound kernel. */
  function CalculatePhi(z: Zone, x: Vec3): real
    requires z.kernels.Some?
  {
    match z.kernels.value.phi
    case SignedDistance => PhiSolid(z, x)
    case PorousConstant => z.epsFactSolid
  }

  /** A zone whose kernels can be evaluated: bound, and a wave present when the wave
      velocity kernel is. */
  predicate Ready(z: Zone) {
    z.kernels.Some? && (z.kernels.value.vel == WaveVelocity ==> z.waves.Some?)
  }

  /** `calculate_vel`, through the bound kernel. */
  function CalculateVel(z: Zone, x: Vec3, t: real): Vec3
    requires Ready(z)
  {
    match z.kernels.value.vel
    case WaveVelocity => Waves.Velocity(z.waves.value, x, t)
    case ZeroVelocity => Zero
  }

  /** `calculate_init`: generation zones relax towards the wave, absorption zones towards
      rest, both by signed distance; porous zones towards rest with a constant distance.
      Any other zone type binds nothing. */
  function CalculateInit(z: Zone): (r: Zone)
    ensures r.(kernels := z.kernels) == z
    ensures z.zoneType == "generation" ==>
              r.kernels.Some? && (forall x :: CalculatePhi(r, x) == PhiSolid(z, x))
              && (z.waves.Some? ==> Ready(r) && forall x, t :: CalculateVel(r, x, t) == Waves.Velocity(z.waves.value, x, t))
    ensures z.zoneType == "absorption" ==>
              Ready(r) && (forall x :: CalculatePhi(r, x) == PhiSolid(z, x))
              && (forall x, t :: CalculateVel(r, x, t) == Zero)
    ensures z.zoneType == "porous" ==>
              Ready(r) && (forall x :: CalculatePhi(r, x) == z.epsFactSolid)
              && (forall x, t :: CalculateVel(r, x, t) == Zero)
    ensures z.zoneType !in {"generation", "absorption", "porous"} ==> r == z
  {
    if z.zoneType == "generation" then z.(kernels := Some(Kernels(WaveVelocity, SignedDistance)))
    else if z.zoneType == "absorption" then z.(kernels := Some(Kernels(ZeroVelocity, SignedDistance)))
    else if z.zoneType == "porous" then z.(kernels := Some(Kernels(ZeroVelocity, PorousConstant)))
    else z
  }

  /** Initialising twice binds the same kernels as initialising once. */
  lemma CalculateInitIdempotent(z: Zone)
    ensures CalculateInit(CalculateInit(z)) == CalculateInit(z)
  {
  }

  /** The signed distance vanishes on the centre plane and falls by `d |o|^2` when `x`
      moves a distance `d` along the orientation `o`. */
  lemma PhiSolidProjection(z: Zone, x: Vec3, d: real)
    ensures PhiSolid(z, z.center) == 0.0
    ensures PhiSolid(z, Add(x, Scale(d, z.orientation)))
            == PhiSolid(z, x) - d * Dot(z.orientation, z.orientation)
  {
    var o := z.orientation;
    var c := z.center;
    assert o.x * (c.x - (x.x + d * o.x)) == o.x * (c.x - x.x) - d * (o.x * o.x);
    assert o.y * (c.y - (x.y + d * o.y)) == o.y * (c.y - x.y) - d * (o.y * o.y);
    assert o.z * (c.z - (x.z + d * o.z)) == o.z * (c.z - x.z) - d * (o.z * o.z);
  }

  /** `table` is the generator's zone array for `zones`: `maxFlag` is the largest key (or
      0), and slot `m` holds the initialised zone of key `m`, or nothing. */
  ghost predicate IsZoneTable(zones: map<nat, Zone>, maxFlag: nat, table: seq<Option<Zone>>) {
    && (forall k :: k in zones ==> k <= maxFlag)
    && (maxFlag == 0 || maxFlag in zones)
    && |table| == maxFlag + 1
    && forall m :: 0 <= m < |table| ==>
         table[m] == (if m in zones then Some(CalculateInit(zones[m])) else None)
  }

  /** The generator's `calculate_init`: initialise every zone, find the largest flag, and
      lay the zones out in an array indexed by flag. */
  method GeneratorCalculateInit(zones: map<nat, Zone>) returns (maxFlag: nat, table: seq<Option<Zone>>)
    ensures IsZoneTable(zones, maxFlag, table)
  {
    maxFlag := 0;
    var rest := zones.Keys;
    while rest != {}
      invariant rest <= zones.Keys
      invariant forall k :: k in zones && k !in rest ==> k <= maxFlag
      invariant maxFlag == 0 || maxFlag in zones
      decreases |rest|
    {
      var k :| k in rest;
      if k > maxFlag {
        maxFlag := k;
      }
      rest := rest - {k};
    }
    table := seq(maxFlag + 1, _ => None);
    rest := zones.Keys;
    while rest != {}
      invariant rest <= zones.Keys
      invariant |table| == maxFlag + 1
      invariant forall m :: 0 <= m < |table| ==>
                  table[m] == (if m in zones && m !in rest then Some(CalculateInit(zones[m])) else None)
      decreases |rest|
    {
      var k :| k in rest;
      table := table[k := Some(CalculateInit(zones[k]))];
      rest := rest - {k};
    }
  }

  /** Flag `m` is relaxed by a loop that admits flags below `bound`. */
  predicate Selected(table: seq<Option<Zone>>, bound: nat, m: nat) {
    m < bound && m < |table| && table[m].Some?
  }

  /** The distances written for one element's quadrature points. */
  function PhiRow(z: Zone, xs: seq<Vec3>): (r: seq<real>)
    requires Ready(z)
    ensures |r| == |xs|
  {
    seq(|xs|, k requires 0 <= k < |xs| => CalculatePhi(z, xs[k]))
  }

  /** The velocity stored at one quadrature point: the first two components of `u`, and
      the third only in three dimensions. */
  function WriteVelocity(u: Vec3, prior: Vec3, nd: int): Vec3 {
    Vec3(u.x, u.y, if nd > 2 then u.z else prior.z)
  }

  /** The velocities written for one element's quadrature points. */
  function VelRow(z: Zone, xs: seq<Vec3>, prior: seq<Vec3>, t: real, nd: int): (r: seq<Vec3>)
    requires Ready(z)
    requires |prior| == |xs|
    ensures |r| == |xs|
  {
    seq(|xs|, k requires 0 <= k < |xs| => WriteVelocity(CalculateVel(z, xs[k], t), prior[k], nd))
  }

  /** The element loop of `__cpp_iterate` over one mesh level, for flags below `bound`:
      an element whose flag selects a zone gets that zone's distance and velocity at every
      quadrature point; every other element keeps what it had. */
  method Iterate(table: seq<Option<Zone>>, bound: nat, nd: int, t: real, mTypes: seq<nat>,
                 qx: seq<seq<Vec3>>, phiSolid: seq<seq<real>>, velSolid: seq<seq<Vec3>>)
    returns (phiOut: seq<seq<real>>, velOut: seq<seq<Vec3>>)
    requires |mTypes| == |qx| == |phiSolid| == |velSolid|
    requires forall e :: 0 <= e < |qx| ==> |qx[e]| == |phiSolid[e]| == |velSolid[e]|
    requires forall e :: 0 <= e < |mTypes| && Selected(table, bound, mTypes[e]) ==> Ready(table[mTypes[e]].value)
    ensures |phiOut| == |phiSolid| && |velOut| == |velSolid|
    ensures forall e :: 0 <= e < |mTypes| && Selected(table, bound, mTypes[e]) ==>
              && phiOut[e] == PhiRow(table[mTypes[e]].value, qx[e])
              && velOut[e] == VelRow(table[mTypes[e]].value, qx[e], velSolid[e], t, nd)
    ensures forall e :: 0 <= e < |mTypes| && !Selected(table, bound, mTypes[e]) ==>
              phiOut[e] == phiSolid[e] && velOut[e] == velSolid[e]
    ensures forall e :: 0 <= e < |velOut| ==> |velOut[e]| == |velSolid[e]|
    ensures nd <= 2 ==> forall e, k :: 0 <= e < |velOut| && 0 <= k < |velOut[e]| ==>
              velOut[e][k].z == velSolid[e][k].z
  {
    phiOut := phiSolid;
    velOut := velSolid;
    var e := 0;
    while e < |mTypes|
      invariant 0 <= e <= |mTypes|
      invariant |phiOut| == |phiSolid| && |velOut| == |velSolid|
      invariant forall i :: 0 <= i < e && Selected(table, bound, mTypes[i]) ==>
                  && phiOut[i] == PhiRow(table[mTypes[i]].value, qx[i])
                  && velOut[i] == VelRow(table[mTypes[i]].value, qx[i], velSolid[i], t, nd)
      invariant forall i :: 0 <= i < |mTypes| && (i >= e || !Selected(table, bound, mTypes[i])) ==>
                  phiOut[i] == phiSolid[i] && velOut[i] == velSolid[i]
    {
      var m := mTypes[e];
      if m < bound && m < |table| && table[m].Some? {
        var z := table[m].value;
        phiOut := phiOut[e := PhiRow(z, qx[e])];
        velOut := velOut[e := VelRow(z, qx[e], velSolid[e], t, nd)];
      }
      e := e + 1;
    }
  }

  /** The loop as written: only flags strictly below the largest flag are admitted. */
  method IterateAsWritten(zones: map<nat, Zone>, maxFlag: nat, table: seq<Option<Zone>>, nd: int, t: real,
                          mTypes: seq<nat>, qx: seq<seq<Vec3>>, phiSolid: seq<seq<real>>,
                          velSolid: seq<seq<Vec3>>)
    returns (phiOut: seq<seq<real>>, velOut: seq<seq<Vec3>>)
    requires IsZoneTable(zones, maxFlag, table)
    requires |mTypes| == |qx| == |phiSolid| == |velSolid|
    requires forall e :: 0 <= e < |qx| ==> |qx[e]| == |phiSolid[e]| == |velSolid[e]|
    requires forall e :: 0 <= e < |mTypes| && mTypes[e] in zones && mTypes[e] < maxFlag ==>
               Ready(CalculateInit(zones[mTypes[e]]))
    ensures |phiOut| == |phiSolid| && |velOut| == |velSolid|
    ensures forall e :: 0 <= e < |mTypes| && mTypes[e] in zones && mTypes[e] < maxFlag ==>
              && phiOut[e] == PhiRow(CalculateInit(zones[mTypes[e]]), qx[e])
              && velOut[e] == VelRow(CalculateInit(zones[mTypes[e]]), qx[e], velSolid[e], t, nd)
    ensures forall e :: 0 <= e < |mTypes| && !(mTypes[e] in zones && mTypes[e] < maxFlag) ==>
              phiOut[e] == phiSolid[e] && velOut[e] == velSolid[e]
  {
    phiOut, velOut := Iterate(table, maxFlag, nd, t, mTypes, qx, phiSolid, velSolid);
  }

  /** The loop with every flag of the table admitted: exactly the elements whose flag has
      a zone are relaxed, each by its own zone. */
  method IterateZones(zones: map<nat, Zone>, maxFlag: nat, table: seq<Option<Zone>>, nd: int, t: real,
                      mTypes: seq<nat>, qx: seq<seq<Vec3>>, phiSolid: seq<seq<real>>,
                      velSolid: seq<seq<Vec3>>)
    returns (phiOut: seq<seq<real>>, velOut: seq<seq<Vec3>>)
    requires IsZoneTable(zones, maxFlag, table)
    requires |mTypes| == |qx| == |phiSolid| == |velSolid|
    requires forall e :: 0 <= e < |qx| ==> |qx[e]| == |phiSolid[e]| == |velSolid[e]|
    requires forall e :: 0 <= e < |mTypes| && mTypes[e] in zones ==> Ready(CalculateInit(zones[mTypes[e]]))
    ensures |phiOut| == |phiSolid| && |velOut| == |velSolid|
    ensures forall e :: 0 <= e < |mTypes| && mTypes[e] in zones ==>
              && phiOut[e] == PhiRow(CalculateInit(zones[mTypes[e]]), qx[e])
              && velOut[e] == VelRow(CalculateInit(zones[mTypes[e]]), qx[e], velSolid[e], t, nd)
    ensures forall e :: 0 <= e < |mTypes| && mTypes[e] !in zones ==>
              phiOut[e] == phiSolid[e] && velOut[e] == velSolid[e]
  {
    phiOut, velOut := Iterate(table, |table|, nd, t, mTypes, qx, phiSolid, velSolid);
  }

  /** With at least one zone, the zone with the largest flag is in the table but the loop
      as written never admits its flag: elements of that material are never relaxed. */
  lemma HighestFlagNeverRelaxed(zones: map<nat, Zone>, maxFlag: nat, table: seq<Option<Zone>>)
    requires IsZoneTable(zones, maxFlag, table)
    requires |zones| > 0
    ensures maxFlag in zones && table[maxFlag].Some?
    ensures !Selected(table, maxFlag, maxFlag)
  {
    if maxFlag == 0 {
      var k :| k in zones;
      assert k <= 0;
    }
  }

  /** With the whole table admitted, a flag is relaxed exactly when it has a zone. */
  lemma TableSelectsExactlyZonedFlags(zones: map<nat, Zone>, maxFlag: nat, table: seq<Option<Zone>>, m: nat)
    requires IsZoneTable(zones, maxFlag, table)
    ensures Selected(table, |table|, m) <==> m in zones
  {
    if m in zones {
      assert m <= maxFlag;
    }
  }
}

=== FILE: results.dfy ===
/** Failure-carrying values shared by the boundary-condition and relaxation-zone models. */
module Results {

  /** An optional argument or attribute; `None` is Python's `None`. */
  datatype Option<T> = None | Some(value: T)

  /** The value held by `o`, or `fallback` when `o` is `None`: how the source fills in an
      optional argument the caller left out. */
  function ValueOr<T>(o: Option<T>, fallback: T): T {
    if o.Some? then o.value else fallback
  }

  /** The outcome of an operation that raises in the source when its input is malformed. */
  datatype Result<T, E> = Success(value: T) | Failure(error: E)
}

=== FILE: waves.dfy ===
/** The wave-inlet characteristics used by the unsteady two-phase velocity inlet and by
    wave-generation zones: free-surface distance, smoothed phase indicator, blended
    wind/wave velocity, normal flux and volume fraction. */
module Waves {
  import opened Results
  import opened Geometry

  /** A wave from the wave-tools library, left uninterpreted: its mean water level, its
      free-surface elevation `eta(x, t)` and its orbital velocity `u(x, t)`. */
  datatype WaveTheory = WaveTheory(mwl: real, eta: (Vec3, real) -> real, u: (Vec3, real) -> Vec3)

  /** The state of one characteristics object. `heaviside(eps, phi)` stands for the
      transport-coefficients library's smoothed Heaviside, also left uninterpreted.
      `bOr` is the outward boundary orientation; relaxation zones build the object without one. */
  datatype Characteristics = Characteristics(
    wt: WaveTheory,
    vertAxis: Axis,
    windSpeed: Vec3,
    bOr: Option<Vec3>,
    smoothing: real,
    vofWater: real,
    vofAir: real,
    heaviside: (real, real) -> real)

  /** The constructor: an omitted wind speed means still air. */
  function NewCharacteristics(wt: WaveTheory, vertAxis: Axis, windSpeed: Option<Vec3>, bOr: Option<Vec3>,
                              smoothing: real, vofWater: real, vofAir: real,
                              heaviside: (real, real) -> real): (w: Characteristics)
    ensures windSpeed.None? ==> w.windSpeed == Zero
    ensures windSpeed.Some? ==> w.windSpeed == windSpeed.value
    ensures w.wt == wt && w.vertAxis == vertAxis && w.bOr == bOr && w.smoothing == smoothing
    ensures w.vofWater == vofWater && w.vofAir == vofAir && w.heaviside == heaviside
  {
    Characteristics(wt, vertAxis, ValueOr(windSpeed, Zero), bOr, smoothing, vofWater, vofAir, heaviside)
  }

  /** Signed height of `x` above the instantaneous free surface `mwl + eta(x, t)`. */
  function Phi(w: Characteristics, x: Vec3, t: real): real {
    x.Get(w.vertAxis) - (w.wt.mwl + w.wt.eta(x, t))
  }

  /** The point `x_max` at which the wave velocity is sampled inside the upper half of
      the smoothing band: `x` moved vertically onto the free surface seen from `x`. */
  function SurfacePoint(w: Characteristics, x: Vec3, t: real): (p: Vec3)
    ensures p.Get(w.vertAxis) == w.wt.mwl + w.wt.eta(x, t)
    ensures forall a: Axis :: a != w.vertAxis ==> p.Get(a) == x.Get(a)
  {
    x.With(w.vertAxis, x.Get(w.vertAxis) - Phi(w, x, t))
  }

  /** When the elevation does not depend on the vertical coordinate (as for a surface
      elevation given in terms of horizontal position), `x_max` lies on the zero level set
      of phi. */
  lemma PhiVanishesAtSurfacePoint(w: Characteristics, x: Vec3, t: real)
    ensures w.wt.eta(SurfacePoint(w, x, t), t) == w.wt.eta(x, t) ==> Phi(w, SurfacePoint(w, x, t), t) == 0.0
  {
  }

  /** The smoothed phase indicator H(phi): 1 in air, 0 in water, the smoothed Heaviside
      inside the band `-smoothing < phi < smoothing`. The source leaves H unbound when no
      branch applies; that case is `None` here and never arises. */
  function SmoothingH(w: Characteristics, phi: real): (h: Option<real>)
    ensures h.Some?
    ensures phi >= w.smoothing ==> h.value == 1.0
    ensures phi < w.smoothing && phi <= -w.smoothing ==> h.value == 0.0
    ensures -w.smoothing < phi < w.smoothing ==> h.value == w.heaviside(w.smoothing, phi)
  {
    if phi >= w.smoothing then Some(1.0)
    else if w.smoothing > 0.0 && -w.smoothing < phi && phi < w.smoothing then Some(w.heaviside(w.smoothing, phi))
    else if phi <= -w.smoothing then Some(0.0)
    else None
  }

  /** With no positive smoothing width the indicator is a sharp step at `phi == smoothing`. */
  lemma SharpInterface(w: Characteristics, phi: real)
    requires w.smoothing <= 0.0
    ensures SmoothingH(w, phi).value == (if phi >= w.smoothing then 1.0 else 0.0)
  {
  }

  /** The smoothed Heaviside is well behaved on the band when it is monotone with values in [0, 1]. */
  ghost predicate BandWellBehaved(w: Characteristics) {
    && (forall p :: -w.smoothing < p < w.smoothing ==> 0.0 <= w.heaviside(w.smoothing, p) <= 1.0)
    && (forall p, q :: -w.smoothing < p <= q < w.smoothing ==>
          w.heaviside(w.smoothing, p) <= w.heaviside(w.smoothing, q))
  }

  /** H stays in [0, 1] and never decreases with height when the smoothed Heaviside is well behaved. */
  lemma SmoothingHMonotone(w: Characteristics, p: real, q: real)
    requires BandWellBehaved(w)
    requires p <= q
    ensures 0.0 <= SmoothingH(w, p).value <= SmoothingH(w, q).value <= 1.0
  {
  }

  /** H at the point `x` and time `t`. */
  function H(w: Characteristics, x: Vec3, t: real): real {
    SmoothingH(w, Phi(w, x, t)).value
  }

  /** The water velocity used in the blend, chosen by the half of the band H falls in. */
  function WaterSpeed(w: Characteristics, x: Vec3, t: real): Vec3 {
    var h := H(w, x, t);
    if 0.0 <= h < 0.5 then w.wt.u(x, t)
    else if 0.5 < h < 1.0 then w.wt.u(SurfacePoint(w, x, t), t)
    else Zero
  }

  /** The inlet velocity: `H * wind + (1 - H) * waterSpeed`. */
  function Velocity(w: Characteristics, x: Vec3, t: real): (v: Vec3)
    ensures H(w, x, t) == 1.0 ==> v == w.windSpeed
    ensures H(w, x, t) == 0.0 ==> v == w.wt.u(x, t)
    ensures H(w, x, t) == 0.5 ==> v == Scale(0.5, w.windSpeed)
    ensures (H(w, x, t) < 0.0 || H(w, x, t) > 1.0) ==> v == Scale(H(w, x, t), w.windSpeed)
  {
    var h := H(w, x, t);
    Add(Scale(h, w.windSpeed), Scale(1.0 - h, WaterSpeed(w, x, t)))
  }

  /** Above the smoothing band the inlet blows the wind; below it carries the wave velocity. */
  lemma VelocityRegimes(w: Characteristics, x: Vec3, t: real)
    ensures Phi(w, x, t) >= w.smoothing ==> Velocity(w, x, t) == w.windSpeed
    ensures Phi(w, x, t) < w.smoothing && Phi(w, x, t) <= -w.smoothing ==> Velocity(w, x, t) == w.wt.u(x, t)
  {
  }

  /** The normal flux `b_or . u` of the inlet velocity. */
  function Pressure(w: Characteristics, x: Vec3, t: real): real
    requires w.bOr.Some?
  {
    Dot(w.bOr.value, Velocity(w, x, t))
  }

  /** Above the band the flux is the wind's normal component, below it the wave's. */
  lemma PressureRegimes(w: Characteristics, x: Vec3, t: real)
    requires w.bOr.Some?
    ensures Phi(w, x, t) >= w.smoothing ==> Pressure(w, x, t) == Dot(w.bOr.value, w.windSpeed)
    ensures Phi(w, x, t) < w.smoothing && Phi(w, x, t) <= -w.smoothing ==>
              Pressure(w, x, t) == Dot(w.bOr.value, w.wt.u(x, t))
  {
    VelocityRegimes(w, x, t);
  }

  /** The volume fraction imposed at the inlet is H itself: 1 above the band, 0 below it;
      `vofAir` and `vofWater` are stored but not consulted. */
  function Vof(w: Characteristics, x: Vec3, t: real): (f: real)
    ensures Phi(w, x, t) >= w.smoothing ==> f == 1.0
    ensures Phi(w, x, t) < w.smoothing && Phi(w, x, t) <= -w.smoothing ==> f == 0.0
    ensures f == H(w, x, t)
  {
    H(w, x, t)
  }

  lemma VofBounded(w: Characteristics, x: Vec3, t: real)
    requires BandWellBehaved(w)
    ensures 0.0 <= Vof(w, x, t) <= 1.0
  {
    SmoothingHMonotone(w, Phi(w, x, t), Phi(w, x, t));
  }
}
